=== FILE: README.md ===
# Student-Hub mentorship and account core, in Dafny

This project models the stateful logic of the Student-Hub platform: the
mentor/mentee workflow over the `User` table, the account lifecycle
(signup, email verification, login, password reset, removal of stale
accounts), and the list filters and request dialog of the mentorship page.

The `User` table is a `map<int, User>` keyed by primary key (`UserModel`).
Every HTTP route is a pure function from the store, the request's
fields and, where the route uses it, the caller id the bearer token resolved
to. It returns a `Reply`: the HTTP status (`Code`, one of 200, 201, 400,
401, 404, 500), the JSON payload on success, and the store afterwards.

- `wrappers.dfy`: `Option`, for the nullable columns and fields.
- `text.dfy`: the string operations the code relies on. These are `split('@')[1]`,
  `endsWith`, `includes` and ASCII `toLowerCase`.
- `user.dfy`: the `User` row and its column defaults, the `status` enum,
  the store constraints (`WellFormed`: primary key and unique email), and the
  `Mentees`/`Mentor` self-association.
- `http.dfy`: status codes and the reply shape.
- `mentorship.dfy`: the seven mentorship routes, as the code behaves.
- `mentorship_intended.dfy`: the corrected versions of three of those routes
  (see Findings). The request/accept workflow lemmas use these.
- `auth.dfy`: email validation, the account routes and the cleanup job.
- `client.dfy`: the mentorship page's filters, search, removal-after-respond
  and dialog state.

Two mentorship handlers read a `const` before its declaration. In
JavaScript that raises a ReferenceError after the first `User.update` has
been committed, and the route's `catch` answers 500. The model follows that
path: a request that passes its check changes the mentor's own row and
answers 500. A response changes only the mentee's `status` and answers 500,
so `mentorId` is never assigned.

Where the code and its own comments disagree, the model follows the code:
- the comment at `backend/routes/mentorship.js:34` says "fetch all users except
  current user and their mentors/mentees", but the mentor listing does not
  exclude already-linked users;
- `request-mentor` writes the target's row, not the caller's;
- the comment at `backend/routes/mentorship.js:106` says "fetch mentorship
  request for a mentor", but the pending-request listing is not scoped to the
  calling mentor.

## Model

| member | source | states |
|---|---|---|
| UserModel.ParseStatus | backend/models/user.js:71-74 | a status string is accepted exactly when it names one of the four enum values, and it maps back to that name |
| UserModel.StatusRoundTrip | backend/models/user.js:71-74 | reading the stored name of any status gives that status back |
| UserModel.NewUser | backend/models/user.js:3-100 | a created row carries the given columns; `emailVerified` is false, `tokenVersion` 0, `status` none, and `mentorId`, role, note and every profile column other than `name` are null |
| UserModel.Mentees | backend/models/user.js:113 | `v` is a mentee of `u` exactly when `v`'s `mentorId` is `u` |
| UserModel.Mentor | backend/models/user.js:114 | a row's mentor is present exactly when its `mentorId` is set and names an existing row, and it is that row |
| UserModel.AssociationsInverse | backend/models/user.js:113-114 | `v` is among `Mentees(u)` iff `Mentor(v)` is `u`: the two associations are inverse views of `mentorId` |
| UserModel.DanglingMentorAllowed | backend/models/user.js:87-90 | a well-formed store may hold a row whose `mentorId` names no user |
| Mentorship.LinkedIds | backend/routes/mentorship.js:14-32 | the collected set holds exactly the caller, the ids of the rows naming the caller as mentor, and the caller's own non-null `mentorId` |
| Mentorship.ListMentors | backend/routes/mentorship.js:9-63 | always 200 and read-only; lists exactly the rows tagged Mentor whose id is not the caller's; each entry has no `bio` |
| Mentorship.ListMentorsIgnoresLinks | backend/routes/mentorship.js:24-44 | some store has the caller's own mentor in the linked set and also in the listing |
| Mentorship.RequestMentor | backend/routes/mentorship.js:66-104 | never 201; a missing or non-Mentor target gives 404 with no change; otherwise only the target's row changes (`mentorId` becomes its own id, status requested, note set) and the reply is 500 |
| Mentorship.PendingRequests | backend/routes/mentorship.js:107-121 | always 200 and read-only; lists exactly the Mentee rows whose status is requested |
| Mentorship.PendingRequestsIgnoreCaller | backend/routes/mentorship.js:107-115 | the pending listing is the same whoever calls |
| Mentorship.Respond | backend/routes/mentorship.js:124-169 | 404 with no change exactly when the mentee is missing; otherwise always 500, with only the mentee's status changed, to the parsed value; no row's `mentorId` ever changes |
| Mentorship.UserRole | backend/routes/mentorship.js:172-187 | read-only; 200 with the caller's role tag exactly when the caller has a row, else 404 |
| Mentorship.UserRoleRepeatable | backend/routes/mentorship.js:172-187 | asking twice in a row gives the same reply |
| Mentorship.GetMentees | backend/routes/mentorship.js:190-214 | read-only; 404 exactly when no row has the id; otherwise exactly the rows naming it as mentor whose status is accepted |
| Mentorship.GetMentor | backend/routes/mentorship.js:217-236 | read-only; 500 exactly when the mentee is missing; 404 exactly when its `mentorId` is null or names no row; 200 exactly when the mentor exists, with a one-element list holding that mentor |
| Mentorship.MenteesHaveThatMentor | backend/routes/mentorship.js:190-236 | every accepted mentee listed for `u` gets `[u]` back from the mentor route |
| Mentorship.RequestThenAcceptAsWritten | backend/routes/mentorship.js:76-162 | a mentee's request to a Mentor and the Mentor's acceptance both answer 500; the mentee never becomes pending; the acceptance sets only the status; no mentor link results |
| MentorshipIntended.ListMentorsIntended | backend/routes/mentorship.js:34-44 | the listing is the as-written listing minus every id in the linked set |
| MentorshipIntended.ListMentorsIntendedExcludesLinked | backend/routes/mentorship.js:14-44 | the caller, the caller's mentor and the caller's mentees are never offered |
| MentorshipIntended.RequestMentorIntended | backend/routes/mentorship.js:66-104 | 404 iff the target is not a Mentor; 201 iff also the caller exists, and then only the caller's row changes (mentor, requested, note); a missing caller gives 500 with no change |
| MentorshipIntended.RespondIntended | backend/routes/mentorship.js:124-169 | 404 iff the mentee is missing; 200 iff the status is valid and the mentor exists; then only the mentee's status changes, plus `mentorId` on an acceptance; any other outcome for an existing mentee is 500, a valid status is written whatever the reply, and no `mentorId` changes except on a 200 acceptance |
| MentorshipIntended.RequestThenAccept | backend/routes/mentorship.js:76-162 | after a request and an acceptance the mentee was pending with its note, is in the mentor's mentee list, and gets `[mentor]` from the mentor route |
| MentorshipIntended.RequestMentorAsWrittenVsIntended | backend/routes/mentorship.js:76-82 | for a mentee asking a Mentor: as written, 500 with the mentee's row unchanged and the Mentor's row self-linked; corrected, 201 with the request on the mentee's row and the Mentor's row unchanged |
| MentorshipIntended.RespondAsWrittenVsIntended | backend/routes/mentorship.js:136-162 | for an acceptance: as written, 500 with the status written and `mentorId` not pointing at the mentor; corrected, 200 with `mentorId` naming the mentor |
| MentorshipIntended.RejectLeavesMenteeOut | backend/routes/mentorship.js:158-162 | after a rejection the mentee is not in that mentor's mentee list |
| Auth.ValidEmail | backend/routes/auth.js:14-17 | an address without `@` is rejected; an accepted one has a second `@`-field ending in `.edu` |
| Auth.ValidEmailOfParts | backend/routes/auth.js:14-17 | for `local@domain` optionally followed by `@...`, acceptance holds iff `domain` ends in `.edu` |
| Auth.AccountOf | backend/models/user.js:9-13 | under the unique-email constraint, the row an email finds is the only row with that email |
| Auth.Signup | backend/routes/auth.js:46-78 | a bad domain gives 400, then a taken email gives 400, both with no change; 201 iff the email is valid and new and the fresh key is free, 500 when that key is taken; success adds one fresh row (code, expiry now + 60000, unverified) and keeps every other row |
| Auth.SignupCreatesAccount | backend/routes/auth.js:54-66 | after a successful signup the email finds exactly the new row |
| Auth.Verify | backend/routes/auth.js:97-123 | 404 iff no row has the email and the code; 400 iff that row's code has expired; neither changes anything; a live matching code gives 200, which clears the code, sets verified and changes nothing else |
| Auth.SignupThenLateVerify | backend/routes/auth.js:106-110 | a code used more than a minute after signup is refused with 400 and no change |
| Auth.VerifyIsOneShot | backend/routes/auth.js:113-115 | repeating a successful verification with the same code gives 404 |
| Auth.SignupVerifyLogin | backend/routes/auth.js:46-195 | signup, verification within the minute, and login with the matching password all succeed; the token carries version 0 |
| Auth.ResendVerification | backend/routes/auth.js:126-155 | 400 with no change iff the email is unknown or already verified; otherwise only that row's code and expiry (now + 60000) change |
| Auth.ResendReplacesCode | backend/routes/auth.js:130-142 | after a resend the old code no longer matches and the new one verifies within its minute |
| Auth.VerifiedRefusesResend | backend/routes/auth.js:131-133 | once verified, a resend is refused with 400 |
| Auth.Login | backend/routes/auth.js:166-195 | read-only; 404 iff the email is unknown; then 401 iff the row is unverified or the password does not match; success returns the row's id and token version |
| Auth.LoginIgnoresPasswordWhenUnverified | backend/routes/auth.js:176-185 | for an unverified row the reply is 401 whatever the password comparison says |
| Auth.PasswordResetCode | backend/routes/auth.js:197-221 | 400 with no change iff the email is unknown; otherwise only that row's code and expiry change |
| Auth.ResetPassword | backend/routes/auth.js:224-273 | mismatched passwords give 400 before any lookup; then unknown email 404, wrong code 400, expired code 400, all with no change; success stores the digest, clears code and expiry, and raises `tokenVersion` by exactly 1 |
| Auth.ResetCodeThenReset | backend/routes/auth.js:197-257 | a reset with a fresh code succeeds; the token version rises by one, so earlier login tokens carry a stale version, and a verified user can log in with the new password |
| Auth.Cleanup | backend/routes/auth.js:158-165 | exactly the unverified rows created more than 600000 ms ago are removed; verified rows and all kept rows are untouched |
| Auth.CleanupIdempotent | backend/routes/auth.js:158-165 | a second run at the same time removes nothing more |
| Auth.SignupSurvivesTenMinutes | backend/routes/auth.js:158-165 | a fresh unverified account survives the job exactly up to ten minutes after signup |
| MentorshipClient.MentorFilter | Frontend/student-hub/src/pages/MentorshipPage.js:87 | keeps every entry tagged Mentor, each as often as it occurs, and no other entry, as an order-preserving subsequence |
| MentorshipClient.ServerMentorsPassClientFilter | Frontend/student-hub/src/pages/MentorshipPage.js:86-87 | any list of entries the mentor listing returned passes the page's Mentor filter unchanged |
| MentorshipClient.PendingFilter | Frontend/student-hub/src/pages/MentorshipPage.js:224-230 | keeps every Mentee entry with status requested, each as often as it occurs, and no other, in order; filtering its result again changes nothing |
| MentorshipClient.PendingFilterIdempotent | Frontend/student-hub/src/pages/MentorshipPage.js:225-227 | applying the pending filter twice equals applying it once |
| MentorshipClient.ServerRequestsPassClientFilter | Frontend/student-hub/src/pages/MentorshipPage.js:225-227 | any list of entries the pending listing returned passes the page's pending filter unchanged |
| MentorshipClient.Search | Frontend/student-hub/src/pages/MentorshipPage.js:250-252 | keeps every entry whose lower-cased name contains the lower-cased term, each as often as it occurs, and no other, in order |
| MentorshipClient.SearchEmptyTerm | Frontend/student-hub/src/pages/MentorshipPage.js:250-252 | an empty term keeps every entry |
| MentorshipClient.SearchIgnoresTermCase | Frontend/student-hub/src/pages/MentorshipPage.js:250-252 | lower-casing the term beforehand does not change the result |
| MentorshipClient.AfterRespond | Frontend/student-hub/src/pages/MentorshipPage.js:169-171 | the list keeps every entry whose id is not the answered user's, each as often as it occurs, in order, and no other |
| MentorshipClient.AfterRespondUnknownUser | Frontend/student-hub/src/pages/MentorshipPage.js:171 | answering a user with no entry leaves the list as it was |
| MentorshipClient.OpenRequestDialog | Frontend/student-hub/src/pages/MentorshipPage.js:213-216 | the dialog is open with that mentor selected, and the note is kept |
| MentorshipClient.CloseRequestDialog | Frontend/student-hub/src/pages/MentorshipPage.js:218-222 | the dialog is closed with no selection and an empty note |
| MentorshipClient.EditNote | Frontend/student-hub/src/pages/MentorshipPage.js:344 | only the note changes |
| MentorshipClient.CloseResetsDialog | Frontend/student-hub/src/pages/MentorshipPage.js:218-222 | closing after any open/edit returns the dialog to its initial state, and closing twice is closing once |

## Left out

- Server-sent events (`sendToClient`, `sendToClients`) and `Notification.create`: these are push and I/O side channels. The `./sse` module and the Notification model are not part of this model. In the as-written mentorship routes neither is reached. The corrected mentorship routes assume the notification write and the push succeed.
- Auth.ResetPassword: assumes the push at `backend/routes/auth.js:260-266`, which runs after `user.save()`, does not throw. If it did, the reply would be 500 with the new password already stored.
- Sending mail (`nodemailer`): it is I/O, and the model assumes it succeeds. A failing send would turn an already-saved signup or resend into 500.
- `bcrypt`: the digest of a new password is a parameter, and `bcrypt.compare` is a function parameter of `Login`.
- `jsonwebtoken`: a signed token is represented by its claims (`Token`). The `verifyToken` middleware is not part of this model, and the caller id is a parameter.
- `generateVerificationCode`: it uses floating-point `Math.random`, so the code is a parameter.
- `node-schedule` timing: only the deletion predicate of the cleanup job is modelled. The clock is an integer `now` in milliseconds.
- Database failures, Sequelize internals and concurrent requests: the store is one map and calls are sequential. So the `catch` paths are reached only through the errors the code itself raises. Those are the ReferenceErrors, the null dereference in the mentor route, an enum value the `status` column refuses, and a primary-key clash on insert.
- `updatedAt`: Sequelize sets it on every save, and it is not modelled. "Nothing else changes" is stated over the modelled columns.
- The fresh primary key of a signup is a parameter (`newId`). A key already in the store is treated as the insert failing with 500.
- Request fields: they are assumed present and of the expected JSON type. Ids are integers, and `email`, `code`, `status` and passwords are strings. A missing field (`undefined`) or a non-numeric route parameter is not modelled.
- Mentorship.Respond: the handling of a `status` outside the enum depends on the database. The model assumes the column refuses the write (500, no change).
- MentorshipClient.Search: lower-casing is ASCII only. JavaScript's `toLowerCase` folds all of Unicode.
- `/checkVerificationCode`, `/user/:userId`, `/dashboard`, `/courses` and the `/mentorship` greeting in `auth.js`: these are fixed lookups or greeting strings with no logic.
- The fetch calls, alerts, loading timers and rendering of the mentorship page, and the other pages, components and server wiring.

## Findings

| source | as written | input that shows it | evidently intended | confidence | as-written member | corrected member |
|---|---|---|---|---|---|---|
| backend/routes/mentorship.js:24-44 | the linked-id set is built but the query filters only on role and caller id | caller 1 with `mentorId` 2; row 2 tagged Mentor; row 2 is listed | leave out the caller's mentors and mentees, as the comment at line 34 says | high, not executed | Mentorship.ListMentorsIgnoresLinks | MentorshipIntended.ListMentorsIntended |
| backend/routes/mentorship.js:76-82 | `mentee` is read at line 79 before its `const` at line 82, and the update names the target's row | any request naming an existing Mentor: the Mentor's own row becomes requested and self-linked, reply 500 | update the requesting mentee's row and answer 201 | high, not executed | MentorshipIntended.RequestMentorAsWrittenVsIntended | MentorshipIntended.RequestMentorIntended |
| backend/routes/mentorship.js:136-162 | `mentor` is read at line 138 before its `const` at line 141 | any response for an existing mentee with `status` accepted: status written, `mentorId` never set, reply 500 | set `mentorId` on acceptance and answer 200 | high, not executed | MentorshipIntended.RespondAsWrittenVsIntended | MentorshipIntended.RespondIntended |

=== FILE: auth.dfy ===
/**
 The account routes: signup, email verification, resending a code, login,
 requesting and using a password-reset code, and the periodic removal of stale
 unverified accounts. Each route is an ordered chain of guards over the one row
 that carries the given email.

 The bcrypt digest of a new password and the random six-digit code are passed
 in; `bcrypt.compare` is a parameter; the clock is an integer `now` in
 milliseconds; a signed token is represented by the claims it carries.
 */
module Auth {
  import opened Wrappers
  import opened Text
  import opened UserModel
  import opened Http

  /** A verification or reset code stays usable for one minute. */
  const CODE_LIFETIME: int := 60000
  /** Unverified accounts older than ten minutes are removed by the scheduled job. */
  const STALE_AGE: int := 600000

  /** The claims of a signed token: the user id and, for login tokens, the row's token version. */
  datatype Token = Token(userId: int, tokenVersion: Option<int>)

  /**
   `validateEmail`: the text between the first and the second `@` must be
   non-empty and end in `.edu`; an address without `@` has no such text.
   */
  function ValidEmail(email: string): (r: bool)
    ensures '@' !in email ==> !r
    ensures r ==> SecondField(email, '@').Some? && EndsWith(SecondField(email, '@').value, ".edu")
  {
    match SecondField(email, '@')
    case None => false
    case Some(domain) => |domain| > 0 && EndsWith(domain, ".edu")
  }

  /**
   An address split at its first `@` into a local part and a domain field, with
   anything after a second `@` ignored, is accepted exactly when the domain field
   ends in `.edu`.
   */
  lemma {:induction false} ValidEmailOfParts(local: string, domain: string, rest: string)
    requires '@' !in local && '@' !in domain
    requires rest == [] || rest[0] == '@'
    ensures ValidEmail(local + "@" + domain + rest) <==> EndsWith(domain, ".edu")
  {
    var e := local + "@" + domain + rest;
    assert e == local + ['@'] + (domain + rest);
    IndexOfAfterPrefix(local, '@', domain + rest);
    assert e[|local| + 1..] == domain + rest;
    if rest == [] {
      assert domain + rest == domain;
    } else {
      assert domain + rest == domain + ['@'] + rest[1..];
      IndexOfAfterPrefix(domain, '@', rest[1..]);
      assert (domain + rest)[..|domain|] == domain;
    }
  }

  predicate HasAccount(s: Store, email: string) {
    exists k | k in s :: s[k].email == email
  }

  /** `User.findOne({ where: { email } })`: the one row with that email. */
  function AccountOf(s: Store, email: string): (k: int)
    requires WellFormed(s) && HasAccount(s, email)
    ensures k in s && s[k].email == email && s[k].id == k
    ensures forall j | j in s && s[j].email == email :: j == k
  {
    var k :| k in s && s[k].email == email; k
  }

  /** A stored timestamp compared with the clock; a null timestamp compares as 0, so it has expired. */
  predicate Expired(u: User, now: int) {
    u.expirationTimestamp.GetOr(0) < now
  }

  /** `POST /signup`: domain check, then uniqueness, then a fresh unverified row carrying the code. */
  function Signup(s: Store, email: string, digest: string, name: string, code: string,
                  now: int, newId: int): (r: Reply<()>)
    requires WellFormed(s)
    ensures WellFormed(r.store) && r.body.None?
    ensures !ValidEmail(email) ==> r.code == BadRequest
    ensures ValidEmail(email) && HasAccount(s, email) ==> r.code == BadRequest
    ensures r.code == Created <==> ValidEmail(email) && !HasAccount(s, email) && newId !in s
    ensures ValidEmail(email) && !HasAccount(s, email) && newId in s ==> r.code == ServerError
    ensures r.code != Created ==> r.store == s
    ensures r.code == Created ==>
      && r.store.Keys == s.Keys + {newId}
      && (forall k | k in s :: r.store[k] == s[k])
      && r.store[newId] == NewUser(newId, email, digest, name, code, now + CODE_LIFETIME, now)
  {
    if !ValidEmail(email) then Bare(BadRequest, s)
    else if HasAccount(s, email) then Bare(BadRequest, s)
    // the autoincremented key is taken: the insert violates the primary key
    else if newId in s then Bare(ServerError, s)
    else Bare(Created, s[newId := NewUser(newId, email, digest, name, code, now + CODE_LIFETIME, now)])
  }

  /** Some row has both this email and this pending code. */
  predicate CodeMatches(s: Store, email: string, code: string) {
    exists k | k in s :: s[k].email == email && s[k].verificationCode == Some(code)
  }

  /** `POST /verify`: the (email, code) pair must match a row (404), the code must be live (400). */
  function Verify(s: Store, email: string, code: string, now: int): (r: Reply<Token>)
    requires WellFormed(s)
    ensures WellFormed(r.store) && r.store.Keys == s.Keys
    ensures r.code == NotFound <==> !CodeMatches(s, email, code)
    ensures r.code == BadRequest <==> CodeMatches(s, email, code) && Expired(s[AccountOf(s, email)], now)
    ensures CodeMatches(s, email, code) && !Expired(s[AccountOf(s, email)], now) ==> r.code == Ok
    ensures r.code != Ok ==> r.store == s && r.body.None?
    ensures r.code == Ok ==>
      var k := AccountOf(s, email);
      && r.body == Some(Token(k, None))
      && r.store == s[k := s[k].(verificationCode := None, emailVerified := true)]
  {
    if !CodeMatches(s, email, code) then Bare(NotFound, s)
    else
      var k := AccountOf(s, email);
      if Expired(s[k], now) then Bare(BadRequest, s)
      else Reply(Ok, Some(Token(k, None)), s[k := s[k].(verificationCode := None, emailVerified := true)])
  }

  /** `POST /resendverification`: refused for an unknown or verified email; otherwise a new live code. */
  function ResendVerification(s: Store, email: string, code: string, now: int): (r: Reply<()>)
    requires WellFormed(s)
    ensures WellFormed(r.store) && r.store.Keys == s.Keys && r.body.None?
    ensures r.code == BadRequest <==> !HasAccount(s, email) || s[AccountOf(s, email)].emailVerified
    ensures r.code != BadRequest ==> r.code == Ok
    ensures r.code == BadRequest ==> r.store == s
    ensures r.code == Ok ==>
      var k := AccountOf(s, email);
      r.store == s[k := s[k].(verificationCode := Some(code), expirationTimestamp := Some(now + CODE_LIFETIME))]
  {
    if !HasAccount(s, email) then Bare(BadRequest, s)
    else
      var k := AccountOf(s, email);
      if s[k].emailVerified then Bare(BadRequest, s)
      else Bare(Ok, s[k := s[k].(verificationCode := Some(code), expirationTimestamp := Some(now + CODE_LIFETIME))])
  }

  /**
   `POST /login`: unknown email 404; unverified 401 before the password is looked
   at; wrong password 401; otherwise a token carrying the row's token version.
   */
  function Login(s: Store, email: string, password: string, compare: (string, string) -> bool): (r: Reply<Token>)
    requires WellFormed(s)
    ensures r.store == s
    ensures r.code == NotFound <==> !HasAccount(s, email)
    ensures r.code != Ok ==> r.body.None?
    ensures HasAccount(s, email) ==>
      var u := s[AccountOf(s, email)];
      && (r.code == Unauthorized <==> !u.emailVerified || !compare(password, u.password))
      && (r.code == Ok ==> r.body == Some(Token(u.id, Some(u.tokenVersion))))
      && (r.code == Ok || r.code == Unauthorized)
  {
    if !HasAccount(s, email) then Bare(NotFound, s)
    else
      var u := s[AccountOf(s, email)];
      if !u.emailVerified then Bare(Unauthorized, s)
      else if !compare(password, u.password) then Bare(Unauthorized, s)
      else Reply(Ok, Some(Token(u.id, Some(u.tokenVersion))), s)
  }

  /** `POST /password-resetcode`: 400 for an unknown email; otherwise a new live code, verified or not. */
  function PasswordResetCode(s: Store, email: string, code: string, now: int): (r: Reply<()>)
    requires WellFormed(s)
    ensures WellFormed(r.store) && r.store.Keys == s.Keys && r.body.None?
    ensures r.code == BadRequest <==> !HasAccount(s, email)
    ensures r.code != BadRequest ==> r.code == Ok
    ensures r.code == BadRequest ==> r.store == s
    ensures r.code == Ok ==>
      var k := AccountOf(s, email);
      r.store == s[k := s[k].(verificationCode := Some(code), expirationTimestamp := Some(now + CODE_LIFETIME))]
  {
    if !HasAccount(s, email) then Bare(BadRequest, s)
    else
      var k := AccountOf(s, email);
      Bare(Ok, s[k := s[k].(verificationCode := Some(code), expirationTimestamp := Some(now + CODE_LIFETIME))])
  }

  /**
   `POST /reset-password`: mismatched passwords 400 before any lookup; then
   unknown email 404, wrong code 400, expired code 400. Success stores the new
   digest, clears code and expiry, and raises the token version by one.
   */
  function ResetPassword(s: Store, email: string, code: string, newPassword: string,
                         confirmPassword: string, digest: string, now: int): (r: Reply<()>)
    requires WellFormed(s)
    ensures WellFormed(r.store) && r.store.Keys == s.Keys && r.body.None?
    ensures r.code != Ok ==> r.store == s
    ensures newPassword != confirmPassword ==> r.code == BadRequest
    ensures newPassword == confirmPassword ==> (r.code == NotFound <==> !HasAccount(s, email))
    ensures newPassword == confirmPassword && HasAccount(s, email) ==>
      var k := AccountOf(s, email);
      && (s[k].verificationCode != Some(code) ==> r.code == BadRequest)
      && (s[k].verificationCode == Some(code) && Expired(s[k], now) ==> r.code == BadRequest)
      && (s[k].verificationCode == Some(code) && !Expired(s[k], now) ==> r.code == Ok)
    ensures r.code == Ok ==>
      var k := AccountOf(s, email);
      && (forall j | j in s && j != k :: r.store[j] == s[j])
      && r.store[k] == s[k].(password := digest, verificationCode := None, expirationTimestamp := None,
                             tokenVersion := s[k].tokenVersion + 1)
  {
    if newPassword != confirmPassword then Bare(BadRequest, s)
    else if !HasAccount(s, email) then Bare(NotFound, s)
    else
      var k := AccountOf(s, email);
      var u := s[k];
      if u.verificationCode != Some(code) then Bare(BadRequest, s)
      else if Expired(u, now) then Bare(BadRequest, s)
      else Bare(Ok, s[k := u.(password := digest, verificationCode := None, expirationTimestamp := None,
                              tokenVersion := u.tokenVersion + 1)])
  }

  /** The row the scheduled job deletes: unverified and created more than ten minutes ago. */
  predicate Stale(u: User, now: int) {
    !u.emailVerified && u.createdAt < now - STALE_AGE
  }

  /** The scheduled cleanup: drops exactly the stale rows and leaves every other row as it was. */
  function Cleanup(s: Store, now: int): (r: Store)
    ensures forall k :: k in r <==> k in s && !Stale(s[k], now)
    ensures forall k | k in r :: r[k] == s[k]
    ensures forall k | k in s && s[k].emailVerified :: k in r
    ensures WellFormed(s) ==> WellFormed(r)
  {
    map k | k in s && !Stale(s[k], now) :: s[k]
  }

  /** Running the job twice at the same time removes nothing more. */
  lemma CleanupIdempotent(s: Store, now: int)
    ensures Cleanup(Cleanup(s, now), now) == Cleanup(s, now)
  {
  }

  /** A fresh signup survives the job for ten minutes and is removed after that unless verified. */
  lemma SignupSurvivesTenMinutes(s: Store, email: string, digest: string, name: string,
                                                    code: string, now: int, newId: int, t: int)
    requires WellFormed(s)
    requires Signup(s, email, digest, name, code, now, newId).code == Created
    ensures var s1 := Signup(s, email, digest, name, code, now, newId).store;
      newId in Cleanup(s1, t) <==> t <= now + STALE_AGE
  {
  }

  /** The account a successful signup creates is the account its email now finds. */
  lemma SignupCreatesAccount(s: Store, email: string, digest: string, name: string,
                             code: string, now: int, newId: int)
    requires WellFormed(s)
    requires Signup(s, email, digest, name, code, now, newId).code == Created
    ensures var s1 := Signup(s, email, digest, name, code, now, newId).store;
      HasAccount(s1, email) && AccountOf(s1, email) == newId
  {
  }

  /**
   Signup, then verification within the minute with the mailed code, then login
   with the password the digest was made from: all three succeed, and the token
   carries version 0.
   */
  lemma SignupVerifyLogin(s: Store, email: string, password: string, digest: string, name: string,
                          code: string, now: int, newId: int, t: int, compare: (string, string) -> bool)
    requires WellFormed(s)
    requires Signup(s, email, digest, name, code, now, newId).code == Created
    requires t <= now + CODE_LIFETIME
    requires compare(password, digest)
    ensures
      var s1 := Signup(s, email, digest, name, code, now, newId).store;
      var r2 := Verify(s1, email, code, t);
      && r2.code == Ok
      && r2.store[newId].emailVerified
      && Login(r2.store, email, password, compare).body == Some(Token(newId, Some(0)))
  {
  }

  /** A code used after its minute is refused with 400 and changes nothing. */
  lemma SignupThenLateVerify(s: Store, email: string, digest: string, name: string,
                             code: string, now: int, newId: int, t: int)
    requires WellFormed(s)
    requires Signup(s, email, digest, name, code, now, newId).code == Created
    requires t > now + CODE_LIFETIME
    ensures
      var s1 := Signup(s, email, digest, name, code, now, newId).store;
      Verify(s1, email, code, t) == Bare(BadRequest, s1)
  {
  }

  /** A verification code works once: it is cleared, so repeating the call finds no match. */
  lemma VerifyIsOneShot(s: Store, email: string, code: string, now: int, later: int)
    requires WellFormed(s)
    requires Verify(s, email, code, now).code == Ok
    ensures Verify(Verify(s, email, code, now).store, email, code, later).code == NotFound
  {
  }

  /** Resending replaces the code: the old one no longer matches and the new one verifies within its minute. */
  lemma ResendReplacesCode(s: Store, email: string, oldCode: string, newCode: string, now: int, t: int)
    requires WellFormed(s)
    requires ResendVerification(s, email, newCode, now).code == Ok
    requires oldCode != newCode
    requires t <= now + CODE_LIFETIME
    ensures var s1 := ResendVerification(s, email, newCode, now).store;
      && Verify(s1, email, oldCode, t).code == NotFound
      && Verify(s1, email, newCode, t).code == Ok
  {
  }

  /** Once verified, an account cannot be sent a new verification code. */
  lemma VerifiedRefusesResend(s: Store, email: string, code: string, now: int, code2: string, later: int)
    requires WellFormed(s)
    requires Verify(s, email, code, now).code == Ok
    ensures ResendVerification(Verify(s, email, code, now).store, email, code2, later).code == BadRequest
  {
  }

  /** An unverified account is refused the same way whatever the password comparison would say. */
  lemma LoginIgnoresPasswordWhenUnverified(s: Store, email: string, password: string,
                                           c1: (string, string) -> bool, c2: (string, string) -> bool)
    requires WellFormed(s) && HasAccount(s, email) && !s[AccountOf(s, email)].emailVerified
    ensures Login(s, email, password, c1) == Login(s, email, password, c2) == Bare(Unauthorized, s)
  {
  }

  /**
   Requesting a reset code and using it within the minute succeeds; the token
   version moves on by one, so a token issued by an earlier login no longer
   carries the row's version, while a new login with the new password does.
   */
  lemma ResetCodeThenReset(s: Store, email: string, code: string, password: string, digest: string,
                           now: int, t: int, oldPassword: string, compare: (string, string) -> bool)
    requires WellFormed(s) && HasAccount(s, email)
    requires t <= now + CODE_LIFETIME
    requires compare(password, digest)
    ensures
      var k := AccountOf(s, email);
      var s1 := PasswordResetCode(s, email, code, now).store;
      var r2 := ResetPassword(s1, email, code, password, password, digest, t);
      var before := Login(s, email, oldPassword, compare);
      && r2.code == Ok
      && r2.store[k].tokenVersion == s[k].tokenVersion + 1
      && (before.code == Ok ==> before.body.value.tokenVersion != Some(r2.store[k].tokenVersion))
      && (s[k].emailVerified ==> Login(r2.store, email, password, compare).code == Ok)
  {
  }
}

=== FILE: client.dfy ===
/**
 The mentorship page's client-side state: the list filters it applies to what
 the server returns, and the request dialog's fields.
 */
module MentorshipClient {
  import opened Wrappers
  import opened Text
  import opened UserModel
  import opened Mentorship

  /** `Array.prototype.filter`: the elements that `keep` accepts, in their original order. */
  function Filter<T(!new)>(s: seq<T>, keep: T -> bool): (r: seq<T>)
    ensures forall x :: x in r <==> x in s && keep(x)
    ensures forall x :: multiset(r)[x] == if keep(x) then multiset(s)[x] else 0
    ensures |r| <= |s|
  {
    if s == [] then []
    else
      assert s == [s[0]] + s[1..];
      if keep(s[0]) then [s[0]] + Filter(s[1..], keep)
      else Filter(s[1..], keep)
  }

  /** `a` is `b` with some elements left out and the rest in the same order. */
  predicate IsSubsequence<T(==)>(a: seq<T>, b: seq<T>) {
    if a == [] then true
    else if b == [] then false
    else if a[0] == b[0] then IsSubsequence(a[1..], b[1..])
    else IsSubsequence(a, b[1..])
  }

  lemma {:induction false} FilterIsSubsequence<T(!new)>(s: seq<T>, keep: T -> bool)
    ensures IsSubsequence(Filter(s, keep), s)
  {
    if s != [] {
      FilterIsSubsequence(s[1..], keep);
      var rest := Filter(s[1..], keep);
      if keep(s[0]) {
        assert ([s[0]] + rest)[1..] == rest;
      } else if rest != [] {
        // `rest` skips s[0]: its first element is one of s[1..], and s[0] was refused
        assert rest[0] in rest;
        assert rest[0] != s[0];
      }
    }
  }

  lemma {:induction false} FilterIdempotent<T(!new)>(s: seq<T>, keep: T -> bool)
    ensures Filter(Filter(s, keep), keep) == Filter(s, keep)
  {
    if s != [] {
      FilterIdempotent(s[1..], keep);
      if keep(s[0]) {
        var rest := Filter(s[1..], keep);
        assert ([s[0]] + rest)[1..] == rest;
      }
    }
  }

  lemma {:induction false} FilterSameTest<T(!new)>(s: seq<T>, k1: T -> bool, k2: T -> bool)
    requires forall i | 0 <= i < |s| :: k1(s[i]) == k2(s[i])
    ensures Filter(s, k1) == Filter(s, k2)
  {
    if s != [] {
      FilterSameTest(s[1..], k1, k2);
    }
  }

  lemma {:induction false} FilterKeepsAll<T(!new)>(s: seq<T>, keep: T -> bool)
    requires forall i | 0 <= i < |s| :: keep(s[i])
    ensures Filter(s, keep) == s
  {
    if s != [] {
      FilterKeepsAll(s[1..], keep);
      assert [s[0]] + s[1..] == s;
    }
  }

  predicate IsMentorCard(c: MentorCard) {
    c.mentorship == Some(MENTOR)
  }

  /** The filter the page applies to the `/mentorship` reply: the entries tagged Mentor, in order. */
  function MentorFilter(cards: seq<MentorCard>): (r: seq<MentorCard>)
    ensures forall c :: c in r <==> c in cards && c.mentorship == Some(MENTOR)
    ensures forall c :: multiset(r)[c] == if c.mentorship == Some(MENTOR) then multiset(cards)[c] else 0
    ensures IsSubsequence(r, cards)
  {
    FilterIsSubsequence(cards, IsMentorCard);
    Filter(cards, IsMentorCard)
  }

  predicate IsPendingCard(c: RequestCard) {
    c.mentorship == Some(MENTEE) && c.status == Requested
  }

  /** The pending-request dialog's filter: Mentee entries whose status is requested, in order. */
  function PendingFilter(cards: seq<RequestCard>): (r: seq<RequestCard>)
    ensures forall c :: c in r <==> c in cards && c.mentorship == Some(MENTEE) && c.status == Requested
    ensures forall c :: multiset(r)[c]
                        == (if c.mentorship == Some(MENTEE) && c.status == Requested then multiset(cards)[c] else 0)
    ensures IsSubsequence(r, cards)
    ensures Filter(r, IsPendingCard) == r
  {
    FilterIsSubsequence(cards, IsPendingCard);
    FilterIdempotent(cards, IsPendingCard);
    Filter(cards, IsPendingCard)
  }

  /** Filtering a second time with the pending filter changes nothing. */
  lemma PendingFilterIdempotent(cards: seq<RequestCard>)
    ensures PendingFilter(PendingFilter(cards)) == PendingFilter(cards)
  {
  }

  predicate NameMatches(c: MentorCard, term: string) {
    Contains(ToLower(c.name), ToLower(term))
  }

  /** The search box: entries whose lower-cased name contains the lower-cased term, in order. */
  function Search(cards: seq<MentorCard>, term: string): (r: seq<MentorCard>)
    ensures forall c :: c in r <==> c in cards && Contains(ToLower(c.name), ToLower(term))
    ensures forall c :: multiset(r)[c]
                        == (if Contains(ToLower(c.name), ToLower(term)) then multiset(cards)[c] else 0)
    ensures IsSubsequence(r, cards)
  {
    FilterIsSubsequence(cards, (c: MentorCard) => NameMatches(c, term));
    Filter(cards, (c: MentorCard) => NameMatches(c, term))
  }

  /** An empty search box shows every mentor. */
  lemma SearchEmptyTerm(cards: seq<MentorCard>)
    ensures Search(cards, "") == cards
  {
    forall i | 0 <= i < |cards|
      ensures NameMatches(cards[i], "")
    {
      EverythingContainsEmpty(ToLower(cards[i].name));
    }
    FilterKeepsAll(cards, c => NameMatches(c, ""));
  }

  /** Typing the term in lower case or as entered makes no difference. */
  lemma SearchIgnoresTermCase(cards: seq<MentorCard>, term: string)
    ensures Search(cards, ToLower(term)) == Search(cards, term)
  {
    ToLowerIdempotent(term);
    FilterSameTest(cards, (c: MentorCard) => NameMatches(c, ToLower(term)), (c: MentorCard) => NameMatches(c, term));
  }

  /** After answering the request of `userId`, the page keeps its earlier list without that user's entries. */
  function AfterRespond(requests: seq<RequestCard>, userId: int): (r: seq<RequestCard>)
    ensures forall c :: c in r <==> c in requests && c.id != userId
    ensures forall c :: multiset(r)[c] == if c.id != userId then multiset(requests)[c] else 0
    ensures IsSubsequence(r, requests)
  {
    FilterIsSubsequence(requests, (c: RequestCard) => c.id != userId);
    Filter(requests, (c: RequestCard) => c.id != userId)
  }

  /** Responding for a user with no entry leaves the list as it was. */
  lemma AfterRespondUnknownUser(requests: seq<RequestCard>, userId: int)
    requires forall i | 0 <= i < |requests| :: requests[i].id != userId
    ensures AfterRespond(requests, userId) == requests
  {
    FilterKeepsAll(requests, (c: RequestCard) => c.id != userId);
  }

  /** A key under which a value of the map is stored. */
  ghost function KeyOf<K, V>(m: map<K, V>, v: V): (k: K)
    requires v in m.Values
    ensures k in m && m[k] == v
  {
    var k :| k in m && m[k] == v; k
  }

  /** Every mentor card the server lists passes the page's Mentor filter unchanged. */
  lemma ServerMentorsPassClientFilter(s: Store, caller: int, cards: seq<MentorCard>)
    requires forall i | 0 <= i < |cards| :: cards[i] in ListMentors(s, caller).body.value.Values
    ensures MentorFilter(cards) == cards
  {
    forall i | 0 <= i < |cards|
      ensures IsMentorCard(cards[i])
    {
      var listing := ListMentors(s, caller).body.value;
      var k := KeyOf(listing, cards[i]);
    }
    FilterKeepsAll(cards, IsMentorCard);
  }

  /** Every request card the server lists passes the page's pending filter unchanged. */
  lemma ServerRequestsPassClientFilter(s: Store, caller: int, cards: seq<RequestCard>)
    requires forall i | 0 <= i < |cards| :: cards[i] in PendingRequests(s, caller).body.value.Values
    ensures PendingFilter(cards) == cards
  {
    forall i | 0 <= i < |cards|
      ensures IsPendingCard(cards[i])
    {
      var listing := PendingRequests(s, caller).body.value;
      var k := KeyOf(listing, cards[i]);
    }
    FilterKeepsAll(cards, IsPendingCard);
  }

  /** The request dialog: whether it is open, the mentor it is for, and the note typed so far. */
  datatype RequestDialog = RequestDialog(open: bool, selectedMentorId: Option<int>, note: string)

  /** The dialog as the page starts it. */
  const InitialDialog := RequestDialog(false, None, "")

  /** `handleOpenRequestDialog`: selects the mentor and opens the dialog; the note is kept. */
  function OpenRequestDialog(d: RequestDialog, mentorId: int): (r: RequestDialog)
    ensures r.open && r.selectedMentorId == Some(mentorId) && r.note == d.note
  {
    d.(selectedMentorId := Some(mentorId), open := true)
  }

  /** `handleCloseRequestDialog`: closes the dialog and clears the selection and the note. */
  function CloseRequestDialog(d: RequestDialog): (r: RequestDialog)
    ensures !r.open && r.selectedMentorId.None? && r.note == ""
  {
    RequestDialog(false, None, "")
  }

  /** The note field's change handler. */
  function EditNote(d: RequestDialog, text: string): (r: RequestDialog)
    ensures r.note == text && r.open == d.open && r.selectedMentorId == d.selectedMentorId
  {
    d.(note := text)
  }

  /** Closing returns the dialog to its initial state, whatever was selected or typed. */
  lemma CloseResetsDialog(d: RequestDialog, mentorId: int, text: string)
    ensures CloseRequestDialog(EditNote(OpenRequestDialog(d, mentorId), text)) == InitialDialog
    ensures CloseRequestDialog(CloseRequestDialog(d)) == CloseRequestDialog(d)
  {
  }
}

=== FILE: http.dfy ===
/** What a route hands back: the HTTP status, the JSON payload on success, and the store afterwards. */
module Http {
  import opened Wrappers
  import opened UserModel

  /** The HTTP statuses the routes answer with: 200, 201, 400, 401, 404 and 500. */
  datatype Code = Ok | Created | BadRequest | Unauthorized | NotFound | ServerError

  datatype Reply<T> = Reply(code: Code, body: Option<T>, store: Store)

  /** A reply without a payload. */
  function Bare<T>(code: Code, s: Store): Reply<T> {
    Reply(code, None, s)
  }
}

=== FILE: mentorship.dfy ===
/**
 The mentorship routes exactly as they behave: each handler is a pure function
 from the store, the caller id the token resolved to, and the request's fields,
 to a reply carrying the status code, the payload and the store afterwards.

 Two handlers read a `const` before its declaration. JavaScript raises a
 ReferenceError there, after the first `User.update` has been committed, and the
 surrounding `catch` answers 500; the model follows that path.
 */
module Mentorship {
  import opened Wrappers
  import opened UserModel
  import opened Http

  /** One entry of the mentor listing. `bio` is read from a row fetched without it, so it never appears. */
  datatype MentorCard = MentorCard(
    id: int, name: string, profilePicture: Option<string>, interest: Option<string>,
    mentorship: Option<string>, school: Option<string>)

  /** One entry of the pending-request listing. */
  datatype RequestCard = RequestCard(
    id: int, name: string, profilePicture: Option<string>, interest: Option<string>,
    mentorship: Option<string>, note: Option<string>, status: Status, mentorId: Option<int>)

  /** One entry of a mentor's mentee list. */
  datatype MenteeCard = MenteeCard(
    id: int, name: string, major: Option<string>, school: Option<string>,
    interest: Option<string>, email: string, profilePicture: Option<string>, bio: Option<string>)

  /** The single entry of a mentee's mentor list. */
  datatype MentorInfo = MentorInfo(
    id: int, name: string, profilePicture: Option<string>, interest: Option<string>,
    bio: Option<string>, email: string)

  /** The JSON body of `POST /request-mentor`: `userId` is the mentor being asked. */
  datatype RequestBody = RequestBody(userId: int, note: Option<string>, mentorId: Option<int>)

  /** The JSON body of `POST /respond-mentorship`: `userId` is the mentee, `status` the decision. */
  datatype RespondBody = RespondBody(userId: int, mentorId: Option<int>, status: string)

  function MentorCardOf(u: User): MentorCard {
    MentorCard(u.id, u.profile.name, u.profile.profilePicture, u.profile.interest, u.mentorship, u.profile.school)
  }

  function RequestCardOf(u: User): RequestCard {
    RequestCard(u.id, u.profile.name, u.profile.profilePicture, u.profile.interest, u.mentorship,
                u.note, u.status, u.mentorId)
  }

  function MenteeCardOf(u: User): MenteeCard {
    MenteeCard(u.id, u.profile.name, u.profile.major, u.profile.school, u.profile.interest, u.email,
               u.profile.profilePicture, u.profile.bio)
  }

  function MentorInfoOf(u: User): MentorInfo {
    MentorInfo(u.id, u.profile.name, u.profile.profilePicture, u.profile.interest, u.profile.bio, u.email)
  }

  /**
   The ids the first query of `GET /mentorship` collects: the id and the non-null
   `mentorId` of every row that is the caller or names the caller as mentor, plus
   the caller. The handler never uses this set.
   */
  function LinkedIds(s: Store, caller: int): (r: set<int>)
    ensures caller in r
    ensures forall k | k in s && s[k].mentorId == Some(caller) :: s[k].id in r
    ensures forall k | k in s && s[k].id == caller && s[k].mentorId.Some? :: s[k].mentorId.value in r
    ensures forall x | x in r ::
      || x == caller
      || (exists k | k in s :: s[k].mentorId == Some(caller) && s[k].id == x)
      || (exists k | k in s :: s[k].id == caller && s[k].mentorId == Some(x))
  {
    var rows := set k | k in s && (s[k].mentorId == Some(caller) || s[k].id == caller);
    (set k | k in rows :: s[k].id)
      + (set k | k in rows && s[k].mentorId.Some? :: s[k].mentorId.value)
      + {caller}
  }

  /** `GET /mentorship`: every row tagged Mentor other than the caller; read-only, always 200. */
  function ListMentors(s: Store, caller: int): (r: Reply<map<int, MentorCard>>)
    ensures r.code == Ok && r.store == s && r.body.Some?
    ensures forall k :: k in r.body.value <==> k in s && s[k].id != caller && s[k].mentorship == Some(MENTOR)
    ensures forall k | k in r.body.value :: r.body.value[k] == MentorCardOf(s[k])
  {
    Reply(Ok, Some(map k | k in s && s[k].id != caller && s[k].mentorship == Some(MENTOR) :: MentorCardOf(s[k])), s)
  }

  predicate IsMentorRow(s: Store, id: int) {
    id in s && s[id].mentorship == Some(MENTOR)
  }

  /**
   `POST /request-mentor`. A target that is missing or not a Mentor gives 404.
   Otherwise the update is applied to the target's own row (its `mentorId` becomes
   its own id), and the ReferenceError that follows turns the reply into 500.
   */
  function RequestMentor(s: Store, caller: int, body: RequestBody): (r: Reply<()>)
    ensures r.code != Created && r.body.None?
    ensures r.store.Keys == s.Keys
    ensures forall k | k in s && k != body.userId :: r.store[k] == s[k]
    ensures !IsMentorRow(s, body.userId) ==> r.code == NotFound && r.store == s
    ensures IsMentorRow(s, body.userId) ==>
      && r.code == ServerError
      && r.store[body.userId]
         == s[body.userId].(mentorId := Some(body.userId), status := Requested, note := body.note)
    ensures WellFormed(s) ==> WellFormed(r.store)
  {
    if !IsMentorRow(s, body.userId) then Bare(NotFound, s)
    else
      var target := body.userId;
      var updated := s[target := s[target].(mentorId := Some(target), status := Requested, note := body.note)];
      Bare(ServerError, updated)
  }

  /** `GET /mentor-requests`: every Mentee row whose status is requested, whoever asks; read-only. */
  function PendingRequests(s: Store, caller: int): (r: Reply<map<int, RequestCard>>)
    ensures r.code == Ok && r.store == s && r.body.Some?
    ensures forall k :: k in r.body.value <==> k in s && s[k].mentorship == Some(MENTEE) && s[k].status == Requested
    ensures forall k | k in r.body.value :: r.body.value[k] == RequestCardOf(s[k])
  {
    Reply(Ok, Some(map k | k in s && s[k].mentorship == Some(MENTEE) && s[k].status == Requested
                         :: RequestCardOf(s[k])), s)
  }

  /**
   `POST /respond-mentorship`. A missing mentee gives 404. Otherwise the mentee's
   status is written (a value outside the enum is refused by the column and the
   write fails), and the ReferenceError that follows gives 500 before `mentorId`
   could be assigned.
   */
  function Respond(s: Store, caller: int, body: RespondBody): (r: Reply<()>)
    ensures r.code != Ok && r.body.None?
    ensures r.code == NotFound <==> body.userId !in s
    ensures body.userId in s ==> r.code == ServerError
    ensures r.code == NotFound ==> r.store == s
    ensures r.store.Keys == s.Keys
    ensures forall k | k in s && k != body.userId :: r.store[k] == s[k]
    ensures forall k | k in s :: r.store[k].mentorId == s[k].mentorId
    ensures body.userId in s ==>
      match ParseStatus(body.status)
      case Some(st) => r.store[body.userId] == s[body.userId].(status := st)
      case None => r.store == s
    ensures WellFormed(s) ==> WellFormed(r.store)
  {
    if body.userId !in s then Bare(NotFound, s)
    else
      match ParseStatus(body.status)
      case None => Bare(ServerError, s)
      case Some(st) => Bare(ServerError, s[body.userId := s[body.userId].(status := st)])
  }

  /** `GET /user-role`: the caller's role tag, or 404 when the caller has no row; read-only. */
  function UserRole(s: Store, caller: int): (r: Reply<Option<string>>)
    ensures r.store == s
    ensures r.code == Ok <==> caller in s
    ensures r.code != Ok ==> r.code == NotFound && r.body.None?
    ensures r.code == Ok ==> r.body == Some(s[caller].mentorship)
  {
    if caller !in s then Bare(NotFound, s) else Reply(Ok, Some(s[caller].mentorship), s)
  }

  /**
   `GET /:userId/mentees`: 404 when no row has the id; otherwise the accepted
   members of its `Mentees` association. The row need not be a Mentor. Read-only.
   */
  function GetMentees(s: Store, u: int): (r: Reply<map<int, MenteeCard>>)
    ensures r.store == s
    ensures r.code == NotFound <==> u !in s
    ensures r.code != NotFound ==> r.code == Ok && r.body.Some?
    ensures r.code == Ok ==>
      && (forall v :: v in r.body.value <==> v in s && s[v].mentorId == Some(u) && s[v].status == Accepted)
      && (forall v | v in r.body.value :: r.body.value[v] == MenteeCardOf(s[v]))
  {
    if u !in s then Bare(NotFound, s)
    else Reply(Ok, Some(map v | v in Mentees(s, u) && s[v].status == Accepted :: MenteeCardOf(s[v])), s)
  }

  /**
   `GET /:userId/mentor`: a missing mentee makes `getMentor` dereference null
   before the 404 check, giving 500; a mentee whose `mentorId` resolves to no row
   gives 404; otherwise the mentor, alone in a list. Read-only.
   */
  function GetMentor(s: Store, v: int): (r: Reply<seq<MentorInfo>>)
    ensures r.store == s
    ensures r.code == ServerError <==> v !in s
    ensures r.code == NotFound <==> v in s && (s[v].mentorId.None? || s[v].mentorId.value !in s)
    ensures r.code == Ok <==> v in s && s[v].mentorId.Some? && s[v].mentorId.value in s
    ensures r.code == Ok ==> r.body == Some([MentorInfoOf(s[s[v].mentorId.value])])
    ensures r.code != Ok ==> r.body.None?
  {
    if v !in s then Bare(ServerError, s)
    else
      match Mentor(s, v)
      case None => Bare(NotFound, s)
      case Some(m) => Reply(Ok, Some([MentorInfoOf(s[m])]), s)
  }

  /** Every accepted mentee listed for `u` resolves, through the other association, back to `u` alone. */
  lemma MenteesHaveThatMentor(s: Store, u: int, v: int)
    requires u in s
    requires v in GetMentees(s, u).body.value
    ensures GetMentor(s, v) == Reply(Ok, Some([MentorInfoOf(s[u])]), s)
  {
  }

  /** The pending listing does not depend on the caller. */
  lemma PendingRequestsIgnoreCaller(s: Store, c1: int, c2: int)
    ensures PendingRequests(s, c1) == PendingRequests(s, c2)
  {
  }

  /** Asking for the role twice without a write in between gives the same answer. */
  lemma UserRoleRepeatable(s: Store, caller: int)
    ensures UserRole(UserRole(s, caller).store, caller) == UserRole(s, caller)
  {
  }

  /**
   The listing does not exclude the caller's own mentor, although the linked-id
   set built for that purpose contains it.
   */
  lemma ListMentorsIgnoresLinks()
    ensures exists s: Store, caller: int, m: int ::
      && WellFormed(s)
      && caller in s && s[caller].mentorId == Some(m)
      && m in LinkedIds(s, caller)
      && m in ListMentors(s, caller).body.value
  {
    var mentee := NewUser(1, "a@b.edu", "d1", "A", "1", 0, 0).(mentorship := Some(MENTEE), mentorId := Some(2));
    var mentor := NewUser(2, "c@d.edu", "d2", "B", "2", 0, 0).(mentorship := Some(MENTOR));
    var s := map[1 := mentee, 2 := mentor];
    assert WellFormed(s);
    assert 2 in ListMentors(s, 1).body.value;
  }

  /**
   The request/accept exchange between a fresh mentee `m` and a mentor `t`, as
   written: both calls answer 500, the mentee's row never enters the pending
   list, acceptance writes only the status, and no mentor link results.
   */
  lemma RequestThenAcceptAsWritten(s: Store, m: int, t: int, note: Option<string>)
    requires WellFormed(s) && m in s && t in s && m != t
    requires s[m].mentorship == Some(MENTEE) && s[m].status == NoRequest && s[m].mentorId.None?
    requires s[t].mentorship == Some(MENTOR)
    ensures
      var r1 := RequestMentor(s, m, RequestBody(t, note, None));
      var r2 := Respond(r1.store, t, RespondBody(m, Some(t), "accepted"));
      && r1.code == ServerError && r2.code == ServerError
      && r1.store[m] == s[m]
      && r1.store[t].status == Requested && r1.store[t].mentorId == Some(t)
      && m !in PendingRequests(r1.store, t).body.value
      && r2.store[m].status == Accepted && r2.store[m].mentorId.None?
      && m !in GetMentees(r2.store, t).body.value
      && GetMentor(r2.store, m).code == NotFound
  {
  }
}

=== FILE: mentorship_intended.dfy ===
/**
 The three mentorship handlers as their own comments and names say they should
 behave: the mentor listing leaves out already-linked users, a request writes the
 requesting mentee's row, and the declarations are in an order that lets both
 handlers finish. These definitions carry the workflow the page is built for.
 */
module MentorshipIntended {
  import opened Wrappers
  import opened UserModel
  import opened Http
  import opened Mentorship

  /** `GET /mentorship` with the linked-id set applied: Mentors not linked to the caller. */
  function ListMentorsIntended(s: Store, caller: int): (r: Reply<map<int, MentorCard>>)
    ensures r.code == Ok && r.store == s && r.body.Some?
    ensures forall k :: k in r.body.value <==>
      k in ListMentors(s, caller).body.value && s[k].id !in LinkedIds(s, caller)
    ensures forall k | k in r.body.value :: k in s && r.body.value[k] == MentorCardOf(s[k])
  {
    var linked := LinkedIds(s, caller);
    Reply(Ok, Some(map k | k in s && s[k].id !in linked && s[k].mentorship == Some(MENTOR) :: MentorCardOf(s[k])), s)
  }

  /** Neither the caller, nor the caller's mentor, nor any of the caller's mentees is offered as a mentor. */
  lemma ListMentorsIntendedExcludesLinked(s: Store, caller: int, k: int)
    requires WellFormed(s)
    requires k in s
    requires || k == caller
             || (caller in s && s[caller].mentorId == Some(k))
             || s[k].mentorId == Some(caller)
    ensures k !in ListMentorsIntended(s, caller).body.value
  {
  }

  /**
   `POST /request-mentor` with the update aimed at the caller: the target must be
   a Mentor (404 otherwise), the caller's row records the request, and the reply
   is 201. A caller without a row leaves the store as it was and ends in 500,
   because the name of a missing mentee cannot be read.
   */
  function RequestMentorIntended(s: Store, caller: int, body: RequestBody): (r: Reply<()>)
    ensures r.store.Keys == s.Keys
    ensures forall k | k in s && k != caller :: r.store[k] == s[k]
    ensures r.code == NotFound <==> !IsMentorRow(s, body.userId)
    ensures r.code == Created <==> IsMentorRow(s, body.userId) && caller in s
    ensures IsMentorRow(s, body.userId) && caller !in s ==> r.code == ServerError
    ensures r.code != Created ==> r.store == s
    ensures r.code == Created ==>
      r.store[caller] == s[caller].(mentorId := Some(body.userId), status := Requested, note := body.note)
    ensures WellFormed(s) ==> WellFormed(r.store)
  {
    if !IsMentorRow(s, body.userId) then Bare(NotFound, s)
    else if caller !in s then Bare(ServerError, s)
    else Bare(Created, s[caller := s[caller].(mentorId := Some(body.userId), status := Requested, note := body.note)])
  }

  /**
   `POST /respond-mentorship` with `mentor` fetched before it is read: 404 for a
   missing mentee; the status is written; a mentor id naming no row then fails
   on the mentor's name (500, status already written); otherwise an acceptance
   also writes `mentorId`, and the reply is 200.
   */
  function RespondIntended(s: Store, caller: int, body: RespondBody): (r: Reply<()>)
    ensures r.store.Keys == s.Keys
    ensures forall k | k in s && k != body.userId :: r.store[k] == s[k]
    ensures r.code == NotFound <==> body.userId !in s
    ensures r.code == Ok <==>
      body.userId in s && ParseStatus(body.status).Some? && body.mentorId.Some? && body.mentorId.value in s
    ensures r.code == Ok ==>
      r.store[body.userId]
      == s[body.userId].(status := ParseStatus(body.status).value,
                         mentorId := if ParseStatus(body.status) == Some(Accepted) then body.mentorId
                                     else s[body.userId].mentorId)
    ensures body.userId in s && r.code != Ok ==> r.code == ServerError
    ensures body.userId in s && ParseStatus(body.status).Some? ==>
      r.store[body.userId].status == ParseStatus(body.status).value
    ensures forall k | k in s :: r.store[k].mentorId != s[k].mentorId ==>
      r.code == Ok && ParseStatus(body.status) == Some(Accepted)
    ensures WellFormed(s) ==> WellFormed(r.store)
  {
    if body.userId !in s then Bare(NotFound, s)
    else
      match ParseStatus(body.status)
      case None => Bare(ServerError, s)
      case Some(st) =>
        var mentee := body.userId;
        var written := s[mentee := s[mentee].(status := st)];
        if body.mentorId.None? || body.mentorId.value !in s then Bare(ServerError, written)
        else if st == Accepted then Bare(Ok, written[mentee := written[mentee].(mentorId := body.mentorId)])
        else Bare(Ok, written)
  }

  /**
   The request/accept exchange between a fresh mentee `m` and a mentor `t` under
   the corrected handlers: the request is listed with its note, and after the
   acceptance each association shows the other party.
   */
  lemma RequestThenAccept(s: Store, m: int, t: int, note: Option<string>)
    requires WellFormed(s) && m in s && t in s && m != t
    requires s[m].mentorship == Some(MENTEE)
    requires s[t].mentorship == Some(MENTOR)
    ensures
      var r1 := RequestMentorIntended(s, m, RequestBody(t, note, None));
      var r2 := RespondIntended(r1.store, t, RespondBody(m, Some(t), "accepted"));
      && r1.code == Created && r2.code == Ok
      && m in PendingRequests(r1.store, t).body.value
      && PendingRequests(r1.store, t).body.value[m].note == note
      && m in GetMentees(r2.store, t).body.value
      && GetMentor(r2.store, m).body == Some([MentorInfoOf(s[t])])
  {
  }

  /** Rejecting leaves the mentee out of the mentor's mentee list. */
  lemma RejectLeavesMenteeOut(s: Store, caller: int, m: int, t: int)
    requires m in s && t in s
    ensures
      var r := RespondIntended(s, caller, RespondBody(m, Some(t), "rejected"));
      m !in GetMentees(r.store, t).body.value
  {
  }

  /**
   A mentee `m` asks Mentor `t`. As written, `m`'s row is left alone, `t`'s row
   becomes a self-linked request and the reply is 500. Corrected, `m`'s row
   records the request, `t`'s row is untouched and the reply is 201.
   */
  lemma RequestMentorAsWrittenVsIntended(s: Store, m: int, t: int, note: Option<string>)
    requires m in s && t in s && m != t
    requires s[t].mentorship == Some(MENTOR)
    ensures
      var asWritten := RequestMentor(s, m, RequestBody(t, note, None));
      var intended := RequestMentorIntended(s, m, RequestBody(t, note, None));
      && asWritten.code == ServerError
      && asWritten.store[m] == s[m]
      && asWritten.store[t].status == Requested && asWritten.store[t].mentorId == Some(t)
      && intended.code == Created
      && intended.store[m].status == Requested && intended.store[m].mentorId == Some(t)
      && intended.store[m].note == note
      && intended.store[t] == s[t]
  {
  }

  /**
   Mentor `t` accepts mentee `m`. As written, the status is written, `mentorId`
   keeps its old value and the reply is 500. Corrected, `mentorId` names `t` and
   the reply is 200.
   */
  lemma RespondAsWrittenVsIntended(s: Store, caller: int, m: int, t: int)
    requires m in s && t in s
    requires s[m].mentorId != Some(t)
    ensures
      var asWritten := Respond(s, caller, RespondBody(m, Some(t), "accepted"));
      var intended := RespondIntended(s, caller, RespondBody(m, Some(t), "accepted"));
      && asWritten.code == ServerError
      && asWritten.store[m].status == Accepted && asWritten.store[m].mentorId != Some(t)
      && intended.code == Ok
      && intended.store[m].status == Accepted && intended.store[m].mentorId == Some(t)
  {
  }
}

=== FILE: text.dfy ===
/**
 The few JavaScript string operations the routes and the page rely on:
 `split(sep)[1]`, `endsWith`, ASCII `toLowerCase` and `includes`.
 */
module Text {
  import opened Wrappers

  /** Position of the first `c` in `s`, as `indexOf` finds it. */
  function IndexOf(s: string, c: char): (r: Option<nat>)
    ensures r.None? <==> c !in s
    ensures r.Some? ==> r.value < |s| && s[r.value] == c && c !in s[..r.value]
  {
    if |s| == 0 then None
    else if s[0] == c then Some(0)
    else
      match IndexOf(s[1..], c)
      case None => None
      case Some(i) =>
        assert s[..i + 1] == [s[0]] + s[1..][..i];
        Some(i + 1)
  }

  /** The part of `s` before its first `c`, or all of `s` when there is no `c`. */
  function UpTo(s: string, c: char): (r: string)
    ensures c !in r
    ensures |r| <= |s| && r == s[..|r|]
    ensures |r| < |s| ==> s[|r|] == c
  {
    match IndexOf(s, c)
    case None => s
    case Some(j) => s[..j]
  }

  /** `s.split(sep)[1]`: the field between the first and the second `sep`; `undefined` when `sep` is absent. */
  function SecondField(s: string, sep: char): (r: Option<string>)
    ensures r.None? <==> sep !in s
  {
    match IndexOf(s, sep)
    case None => None
    case Some(i) => Some(UpTo(s[i + 1..], sep))
  }

  predicate EndsWith(s: string, suffix: string) {
    |suffix| <= |s| && s[|s| - |suffix|..] == suffix
  }

  /** `toLowerCase` restricted to ASCII letters. */
  function LowerChar(c: char): char {
    if 'A' <= c <= 'Z' then (c as int + 32) as char else c
  }

  function ToLower(s: string): (r: string)
    ensures |r| == |s|
    ensures forall i :: 0 <= i < |s| ==> r[i] == LowerChar(s[i])
    ensures forall i :: 0 <= i < |r| ==> !('A' <= r[i] <= 'Z')
  {
    seq(|s|, i requires 0 <= i < |s| => LowerChar(s[i]))
  }

  /** `needle` occurs in `hay` starting at position `i`. */
  predicate OccursAt(hay: string, needle: string, i: int) {
    0 <= i && i + |needle| <= |hay| && hay[i..i + |needle|] == needle
  }

  /** `hay.includes(needle)`. */
  predicate Contains(hay: string, needle: string) {
    exists i | 0 <= i <= |hay| - |needle| :: OccursAt(hay, needle, i)
  }

  lemma IndexOfAfterPrefix(prefix: string, c: char, rest: string)
    requires c !in prefix
    ensures IndexOf(prefix + [c] + rest, c) == Some(|prefix|)
  {
    var s := prefix + [c] + rest;
    assert s[|prefix|] == c;
    assert s[..|prefix|] == prefix;
  }

  lemma ToLowerIdempotent(s: string)
    ensures ToLower(ToLower(s)) == ToLower(s)
  {
  }

  lemma EverythingContainsEmpty(hay: string)
    ensures Contains(hay, "")
  {
    assert OccursAt(hay, "", 0);
  }
}

=== FILE: user.dfy ===
/**
 The `User` table: one immutable row per account, and the store as a finite map
 from primary key to row. Every route of the model is a function of this store.
 */
module UserModel {
  import opened Wrappers

  /** The role tags the routes compare the nullable `mentorship` column against. */
  const MENTOR: string := "Mentor"
  const MENTEE: string := "Mentee"

  /** The `status` column: a four-valued enum whose default is 'none' (`NoRequest` here). */
  datatype Status = Accepted | Rejected | Requested | NoRequest

  /** The enum value as stored and as sent over the wire. */
  function StatusName(st: Status): string {
    match st
    case Accepted => "accepted"
    case Rejected => "rejected"
    case Requested => "requested"
    case NoRequest => "none"
  }

  /** Reads an enum value; any other string is not a value of the column. */
  function ParseStatus(text: string): (r: Option<Status>)
    ensures r.Some? ==> StatusName(r.value) == text
    ensures r.None? ==> forall st: Status :: StatusName(st) != text
  {
    if text == "accepted" then Some(Accepted)
    else if text == "rejected" then Some(Rejected)
    else if text == "requested" then Some(Requested)
    else if text == "none" then Some(NoRequest)
    else None
  }

  /** The free-form profile columns; all nullable except `name`. */
  datatype Profile = Profile(
    name: string,
    bio: Option<string>,
    profilePicture: Option<string>,
    phone: Option<string>,
    address: Option<string>,
    city: Option<string>,
    state: Option<string>,
    school: Option<string>,
    major: Option<string>,
    interest: Option<string>)

  /**
   One row of the table. `password` holds the bcrypt digest, timestamps are
   milliseconds, and `mentorId` is a plain nullable integer: nothing ties it to an
   existing row.
   */
  datatype User = User(
    id: int,
    email: string,
    password: string,
    profile: Profile,
    verificationCode: Option<string>,
    emailVerified: bool,
    expirationTimestamp: Option<int>,
    tokenVersion: int,
    mentorship: Option<string>,
    status: Status,
    note: Option<string>,
    mentorId: Option<int>,
    createdAt: int)

  type Store = map<int, User>

  /** The table's constraints: each row sits under its own primary key, and `email` is unique. */
  predicate WellFormed(s: Store) {
    && (forall k | k in s :: s[k].id == k)
    && (forall k1, k2 | k1 in s && k2 in s && k1 != k2 :: s[k1].email != s[k2].email)
  }

  /** A profile with only the required `name`: every other profile column is nullable and has no default. */
  function EmptyProfile(name: string): Profile {
    Profile(name, None, None, None, None, None, None, None, None, None)
  }

  /**
   The row `User.create` inserts from the given columns; every column not given
   takes its declared default.
   */
  function NewUser(id: int, email: string, password: string, name: string,
                   code: string, expiration: int, now: int): (u: User)
    ensures u.id == id && u.email == email && u.password == password
    ensures u.profile == EmptyProfile(name)
    ensures u.verificationCode == Some(code) && u.expirationTimestamp == Some(expiration)
    ensures !u.emailVerified && u.tokenVersion == 0 && u.status == NoRequest
    ensures u.mentorId.None? && u.mentorship.None? && u.note.None? && u.createdAt == now
  {
    User(id, email, password, EmptyProfile(name), Some(code), false, Some(expiration),
         0, None, NoRequest, None, None, now)
  }

  /** The `Mentees` association of row `u`: every row whose `mentorId` names `u`. */
  function Mentees(s: Store, u: int): (r: set<int>)
    ensures forall v :: v in r <==> v in s && s[v].mentorId == Some(u)
  {
    set v | v in s && s[v].mentorId == Some(u)
  }

  /** The `Mentor` association of row `v`: the row its `mentorId` names, when one exists. */
  function Mentor(s: Store, v: int): (r: Option<int>)
    requires v in s
    ensures r.Some? <==> s[v].mentorId.Some? && s[v].mentorId.value in s
    ensures r.Some? ==> r == s[v].mentorId
  {
    match s[v].mentorId
    case Some(m) => if m in s then Some(m) else None
    case None => None
  }

  /** The two associations are the two directions of the same `mentorId` column. */
  lemma AssociationsInverse(s: Store, u: int, v: int)
    requires u in s && v in s
    ensures v in Mentees(s, u) <==> Mentor(s, v) == Some(u)
  {
  }

  lemma StatusRoundTrip(st: Status)
    ensures ParseStatus(StatusName(st)) == Some(st)
  {
  }

  /** `mentorId` is unconstrained: a well-formed store may hold a row whose mentor does not exist. */
  lemma DanglingMentorAllowed()
    ensures exists s: Store :: WellFormed(s) && 1 in s && s[1].mentorId.Some? && Mentor(s, 1).None?
  {
    var u := NewUser(1, "a@b.edu", "digest", "A", "123456", 0, 0).(mentorId := Some(2));
    var s := map[1 := u];
    assert WellFormed(s) && Mentor(s, 1).None?;
  }
}

=== FILE: wrappers.dfy ===
/** The nullable-value datatype used for the columns and request fields that may be null. */
module Wrappers {

  datatype Option<+T> = None | Some(value: T) {

    /** The wrapped value, or `default` when there is none. */
    function GetOr(default: T): T {
      match this
      case Some(v) => v
      case None => default
    }
  }
}
